=== FILE: README.md ===
# Search query strings and the entity service contract (vargar2/REST)

This project models two small, pure behaviours of the REST service's core, as
its tests fix them:

- **`SearchUtil.constructQueryString`**: the search query-string encoder
  (`search_util.dfy`). It takes an optional id and an optional name, each with
  its own negation flag. Every present field becomes a token
  `field [~] = value`, and the tokens are joined with `,`, id first. The model
  also has the parser that reads such a string back. A consumer of the query
  string needs that parser. The round trip between encoder and parser is proved.
  Ids are written as Java's `Long.toString` writes them (`decimal.dfy`).
- **`IService<T>`**: the generic persistence-service contract
  (`persistence_service.dfy`). The store is an immutable value: a map from id
  to entity content plus the next id to hand out. `findAll`, `findOne`,
  `create`, `update`, `delete` and `deleteAll` are pure functions. `findOne`
  returns the entity or absent, and `findAll` returns a list. `create`,
  `update` and `delete` return the new store or the exception the service
  throws. `deleteAll` always returns the new store. Null input is an
  invocation error. Constraint violations and unknown ids are data-access errors.
- **`IRoleService`**: the service at entity type Role (`role_service.dfy`). A
  Role is invalid exactly when its name is null. `search` keeps the stored
  roles that satisfy every `(key, value)` constraint. A key `"~" + field`
  negates its constraint. At the service level `~` comes before the field
  name; in the query string it comes after (`name~=x`). `QueryConstraints`
  moves the marker from one position to the other, and `QueryStringSearch`
  proves that encoding, parsing and searching fit together.

Field names and markers are single constants in `SearchUtil`: `ID = "id"`,
`NAME = "name"`, `OP = '='`, `NEGATION = '~'`, `SEPARATOR = ','`. The
encoder tests fix only `NAME` and the separator as literals
(src/test/java/org/rest/sec/util/ConstructQueryStringUnitTest.java:39).
`ID`, `OP` and `NEGATION` are chosen values. `"id"` and `"~"` are the ones
the role search test uses at the service level
(src/test/java/org/rest/sec/persistence/service/RoleServiceSearchPersistenceIntegrationTest.java:33
and :171). No source fixes `=`.

## Model

| member | source | states |
|---|---|---|
| SearchUtil.ConstructQueryStringNegated | src/test/java/org/rest/sec/util/ConstructQueryStringUnitTest.java:44-82 | Total on every combination of absent fields and flags. The result is empty exactly when both fields are absent. With only an id, the result is exactly the id token. With both fields it is the id token, `,`, then the name token. With only a name it is the name token. |
| SearchUtil.ConstructQueryString | src/test/java/org/rest/sec/util/ConstructQueryStringUnitTest.java:11-40 | The two-argument form is the four-argument form with both flags off. Its output carries `~` only when the name itself does. |
| SearchUtil.ConstructQueryStringExamples | src/test/java/org/rest/sec/util/ConstructQueryStringUnitTest.java:25-40 | `(2, null)` gives `id=2`, `(null, "someName")` gives `name=someName`, and `(32, "someName")` gives `id=32,name=someName`. |
| SearchUtil.ConstructQueryStringNegatedExamples | src/test/java/org/rest/sec/util/ConstructQueryStringUnitTest.java:48-62 | A negated single field renders with `~` between the field and `=`: `id~=2` and `name~=some`. |
| SearchUtil.ConstructQueryStringMixedExamples | src/test/java/org/rest/sec/util/ConstructQueryStringUnitTest.java:68-82 | With both fields, each flag marks only its own token: `id=2,name~=some`, `id~=2,name=some` and `id~=2,name~=some`. |
| SearchUtil.ConstructParseRoundTrip | src/test/java/org/rest/sec/util/ConstructQueryStringUnitTest.java:36-82 | For a name without `,`, parsing the encoded string gives back every present field with its own flag and no absent field. Order (id first), the separator and the marker's position are therefore all recoverable. |
| SearchUtil.ConstructInjective | src/test/java/org/rest/sec/util/ConstructQueryStringUnitTest.java:36-82 | Two calls give the same string exactly when they ask for the same fields with the same flags. This holds for every name, including names with `,`. |
| SearchUtil.ParseToken | src/test/java/org/rest/sec/util/ConstructQueryStringUnitTest.java:48-62 | A token is read exactly when it holds a `=`. The field holds no `=`, so the cut is at the first one. An unflagged field never ends in `~`, so a `~` just before the `=` is always read as the flag. Rendering the parts again gives the token. |
| SearchUtil.JoinSplit | src/test/java/org/rest/sec/util/ConstructQueryStringUnitTest.java:36-40 | Cutting a string at `,` and joining the pieces gives the string back. |
| SearchUtil.SplitJoin | src/test/java/org/rest/sec/util/ConstructQueryStringUnitTest.java:36-40 | Joining `,`-free tokens and cutting the result gives the tokens back. |
| Decimal.LongToString | src/test/java/org/rest/sec/util/ConstructQueryStringUnitTest.java:25-40 | An id renders as non-empty text. It starts with `-` exactly when the id is negative, and is otherwise all digits, without leading zeros. So it never holds `,`, `=` or `~`. |
| Decimal.LongRoundTrip | src/test/java/org/rest/sec/util/ConstructQueryStringUnitTest.java:25-29 | The id's decimal text, with a sign when negative, parses back to the id. |
| Decimal.LongToStringInjective | src/test/java/org/rest/sec/util/ConstructQueryStringUnitTest.java:36-40 | Distinct ids render as distinct text. |
| PersistenceService.FindOne | src/test/java/org/rest/persistence/AbstractPersistenceServiceIntegrationTest.java:53-80 | `findOne` returns absent, not an error, exactly when no entity has that id. Otherwise it returns that id with the stored content. |
| PersistenceService.FindAll | src/test/java/org/rest/persistence/AbstractPersistenceServiceIntegrationTest.java:24-51 | `findAll` lists exactly the entities `findOne` finds, in ascending id order. Its size is the number of stored entities. |
| PersistenceService.Create | src/test/java/org/rest/persistence/AbstractPersistenceServiceIntegrationTest.java:82-121 | A null entity is an invocation error, and an invalid one a constraint violation. Otherwise the returned entity has the input's content and a fresh positive id. The store gains exactly that entry. |
| PersistenceService.Update | src/test/java/org/rest/persistence/AbstractPersistenceServiceIntegrationTest.java:123-151 | A null entity is an invocation error, and an invalid one a constraint violation. An id the store lacks is a not-found error. Otherwise only that id's content is replaced, and the id set stays the same. |
| PersistenceService.Delete | src/test/java/org/rest/persistence/AbstractPersistenceServiceIntegrationTest.java:153-183 | Delete fails with a data-access error exactly when the id is not stored. Otherwise it removes that id only and leaves every other entry unchanged. |
| PersistenceService.DeleteAll | src/test/java/org/rest/persistence/AbstractPersistenceServiceIntegrationTest.java:185-213 | `deleteAll` cannot fail. It leaves no entity and keeps the id sequence. |
| PersistenceService.CollectSize | src/test/java/org/rest/persistence/AbstractPersistenceServiceIntegrationTest.java:36-51 | The listing of an id range has one entry per stored id in that range. |
| PersistenceService.OperationsPreserveInv | src/test/java/org/rest/persistence/AbstractPersistenceServiceIntegrationTest.java:82-213 | Every successful create, update, delete and every deleteAll keeps ids in the sequence's range and every stored entity valid. |
| PersistenceService.CreateThenFind | src/test/java/org/rest/persistence/AbstractPersistenceServiceIntegrationTest.java:36-51 | After creating a valid entity, `findOne` of its new id returns it with the input's content. It is listed by `findAll`, and `findAll` grows by one. |
| PersistenceService.CreateKeepsOthers | src/test/java/org/rest/persistence/AbstractPersistenceServiceIntegrationTest.java:101-113 | Create changes nothing under any other id. |
| PersistenceService.UpdateThenFind | src/test/java/org/rest/persistence/AbstractPersistenceServiceIntegrationTest.java:142-151 | After updating a stored entity, `findOne` returns the updated entity. Every other id is unchanged. |
| PersistenceService.DeleteThenFind | src/test/java/org/rest/persistence/AbstractPersistenceServiceIntegrationTest.java:165-183 | Deleting a stored id succeeds, and `findOne` then reports it absent. Every other id is unchanged. |
| PersistenceService.DeleteNegativeIdFails | src/test/java/org/rest/persistence/AbstractPersistenceServiceIntegrationTest.java:160-164 | In a well-formed store, deleting a negative id is a data-access error. |
| PersistenceService.DeleteAllEmpties | src/test/java/org/rest/persistence/AbstractPersistenceServiceIntegrationTest.java:195-213 | After `deleteAll`, `findAll` is empty. A second `deleteAll` gives the same store. |
| RoleService.ValidRole | src/test/java/org/rest/sec/persistence/service/RoleServiceSearchPersistenceIntegrationTest.java:200-202 | The Role constraint that `invalidate` breaks: a role is valid exactly when its name is not null. |
| RoleService.NewRole | src/test/java/org/rest/sec/persistence/service/RoleServiceSearchPersistenceIntegrationTest.java:209-211 | A role built from a name and a privilege set is valid and carries both. |
| RoleService.Invalidate | src/test/java/org/rest/sec/persistence/service/RoleServiceSearchPersistenceIntegrationTest.java:200-202 | Clearing the name makes a role invalid and keeps its privileges. |
| RoleService.CreateInvalidRoleFails | src/test/java/org/rest/persistence/AbstractPersistenceServiceIntegrationTest.java:115-121 | Creating a role whose name is null is a constraint violation. That is a data-access error, unlike null input. |
| RoleService.UpdateInvalidRoleFails | src/test/java/org/rest/persistence/AbstractPersistenceServiceIntegrationTest.java:135-141 | Updating a role to a null name is a constraint violation. |
| RoleService.ParseConstraint | src/test/java/org/rest/sec/persistence/service/RoleServiceSearchPersistenceIntegrationTest.java:165-190 | An accepted constraint is `[~]id` with a long or `[~]name` with a string. The flag is the leading `~`. Anything else is reported as malformed with its key. |
| RoleService.ParseConstraintsReadsEach | src/test/java/org/rest/sec/persistence/service/RoleServiceSearchPersistenceIntegrationTest.java:126-161 | A list of constraints is read exactly when each constraint is, one filter per constraint, in order. |
| RoleService.Select | src/test/java/org/rest/sec/persistence/service/RoleServiceSearchPersistenceIntegrationTest.java:126-161 | Keeps exactly the listed roles that satisfy every filter. |
| RoleService.Search | src/test/java/org/rest/sec/persistence/service/RoleServiceSearchPersistenceIntegrationTest.java:51-58 | Search fails only on a malformed constraint. When it succeeds it returns exactly the stored roles that satisfy every constraint. |
| RoleService.SearchById | src/test/java/org/rest/sec/persistence/service/RoleServiceSearchPersistenceIntegrationTest.java:62-83 | Searching by `("id", v)` finds a stored role exactly when `v` is its id. |
| RoleService.SearchByName | src/test/java/org/rest/sec/persistence/service/RoleServiceSearchPersistenceIntegrationTest.java:87-122 | Searching by `("name", v)` finds a stored role exactly when `v` is its name, so another name excludes it. |
| RoleService.SearchIsConjunctive | src/test/java/org/rest/sec/persistence/service/RoleServiceSearchPersistenceIntegrationTest.java:126-161 | A role is found by name and id together exactly when the name search and the id search each find it. |
| RoleService.SearchOrderIrrelevant | src/test/java/org/rest/sec/persistence/service/RoleServiceSearchPersistenceIntegrationTest.java:126-161 | Two constraint lists with the same members succeed together and return the same list. |
| RoleService.NegationComplements | src/test/java/org/rest/sec/persistence/service/RoleServiceSearchPersistenceIntegrationTest.java:163-190 | For an id or name constraint, the `~` form finds a stored role exactly when the plain form does not. |
| RoleService.SearchByNegatedName | src/test/java/org/rest/sec/persistence/service/RoleServiceSearchPersistenceIntegrationTest.java:165-177 | `("~name", e1.name)` excludes `e1` and includes any stored role with a different name. |
| RoleService.SearchByNegatedId | src/test/java/org/rest/sec/persistence/service/RoleServiceSearchPersistenceIntegrationTest.java:178-190 | `("~id", e1.id)` excludes `e1` and includes any other stored role. |
| RoleService.QueryConstraints | src/test/java/org/rest/sec/persistence/service/RoleServiceSearchPersistenceIntegrationTest.java:171 | A parsed query becomes exactly one service constraint per present criterion, the id constraint first. |
| RoleService.CriterionConstraintsParse | src/test/java/org/rest/sec/persistence/service/RoleServiceSearchPersistenceIntegrationTest.java:171-184 | The service reads a criterion's constraint back as the same value and flag, with the `~` moved to before the field name, as in `"~" + NAME`. |
| RoleService.SearchQueryConstraints | src/test/java/org/rest/sec/persistence/service/RoleServiceSearchPersistenceIntegrationTest.java:126-190 | Running a parsed query's constraints succeeds. It keeps exactly the roles that meet each present criterion under that criterion's flag. |
| RoleService.QueryStringSearch | src/test/java/org/rest/sec/util/ConstructQueryStringUnitTest.java:64-82 | For a name without `,`, encoding a search as a query string, parsing it and running it keeps exactly the roles that meet each present field under its own flag. |

## Left out

- The classes `SearchUtil`, `IService`, `IRoleService` and `Role` are not part of this model's sources. Their behaviour comes from the tests that exercise them, except for the choices listed below.
- RoleService.Search: no test searches with zero constraints. The model returns every stored role for an empty list, so a `(null, null)` query string means "all roles" through SearchQueryConstraints and QueryStringSearch. No test passes an unknown key or a value of the wrong type either. The `MalformedConstraint` error for them is the model's choice.
- SearchUtil.ParseQueryString, SearchUtil.ParseToken and RoleService.QueryConstraints are the model's own reader and bridge. They are partner definitions for the encoder, not the server's code, which is not part of this model.
- SearchUtil.ConstructQueryStringNegated: the tests never fix the output for both fields absent. The model returns the empty string, and its contract promises that `(null, null)` gives the empty string and no other input does.
- The values `ID = "id"`, `OP = '='` and `NEGATION = '~'` are not fixed as literals by the encoder tests. Each is defined once, so another value changes only one line. `OP`, `NEGATION` and `SEPARATOR` are single characters.
- SearchUtil.ConstructParseRoundTrip: only names without `,` round-trip. The format has no escaping, and the parser cuts at every `,`. The encoding itself stays injective for every name (SearchUtil.ConstructInjective).
- Java's 64-bit `long` is not modelled. Ids are unbounded integers, so the id sequence is never exhausted.
- `create` of an entity that already has an id is not modelled. The test for it is ignored as a known framework inconsistency (src/test/java/org/rest/persistence/AbstractPersistenceServiceIntegrationTest.java:88-95).
- PersistenceService.Update: the tests never update an id that is not stored. The model reports a not-found error for it.
- PersistenceService.Create requires a well-formed store (ids come from a sequence starting at 1). Every store the operations build is well formed: PersistenceService.EmptyStore is, and PersistenceService.OperationsPreserveInv keeps it so. The store itself is not a caller input in Java.
- PersistenceService.FindAll requires a well-formed store for the same reason. It lists ids in the sequence's range only.
- PersistenceService.FindAll: the ascending id order is the model's choice. The tests only check that `findAll` is non-empty, holds a created entity, or is empty. The order also fixes the order of `search` results, and so the list equality that RoleService.SearchOrderIrrelevant proves.
- PersistenceService.DeleteAll: keeping the id sequence is the model's choice, so ids are never reused after `deleteAll`. No test fixes this.
- RoleService.NegationComplements, RoleService.SearchByNegatedName, RoleService.SearchQueryConstraints and RoleService.QueryStringSearch require every stored role to be valid. Create and update keep it that way. A database `<>` comparison would also drop a row whose name is null, while the model's negation keeps it. So these lemmas say nothing about stores that hold such a role.
- Spring contexts, JPA/Hibernate, transactions and rollback are left out, as is the shared fixture that clears the services before each test. The store is a value, and each test scenario starts from a given store.
- The random generators for ids and names are left out. Lemmas take the needed distinctness (another id, another name) as a precondition.
- Role privileges form an opaque set. Search does not inspect it, and the privilege service is not modelled.
- The REST client, pagination and authentication tests are left out. They check HTTP status codes over a server whose logic is not part of this model.

=== FILE: decimal.dfy ===
/** Decimal rendering of Java `long` values, as `Long.toString` does it, and the
    parser that reads such a rendering back. The query-string encoder writes an
    id with the former; a consumer of the query string needs the latter. */
module Decimal {
  import opened Wrappers

  predicate IsDigit(c: char) {
    '0' <= c <= '9'
  }

  predicate AllDigits(s: string) {
    forall c :: c in s ==> IsDigit(c)
  }

  function DigitChar(d: nat): (c: char)
    requires d < 10
    ensures IsDigit(c)
    ensures c as int - '0' as int == d
  {
    ('0' as int + d) as char
  }

  /** Decimal digits of a natural number, most significant first, no leading zeros. */
  function NatToString(n: nat): (s: string)
    ensures |s| > 0
    ensures AllDigits(s)
    ensures |s| > 1 ==> s[0] != '0'
    decreases n
  {
    if n < 10 then [DigitChar(n)] else NatToString(n / 10) + [DigitChar(n % 10)]
  }

  /** The value of a digit string read most significant digit first. */
  function DigitsValue(s: string): (v: nat)
    requires AllDigits(s)
    decreases |s|
  {
    if |s| == 0 then 0
    else
      assert s[|s| - 1] in s;
      DigitsValue(s[..|s| - 1]) * 10 + (s[|s| - 1] as int - '0' as int)
  }

  /** `Long.toString`: a leading minus sign for negative values. */
  function LongToString(n: int): (s: string)
    ensures |s| > 0
    ensures n < 0 <==> s[0] == '-'
    ensures n >= 0 ==> AllDigits(s)
    ensures n < 0 ==> AllDigits(s[1..])
    ensures n >= 0 && |s| > 1 ==> s[0] != '0'
    ensures n < 0 ==> |s| > 1 && s[1] != '0'
    ensures forall c :: c in s ==> IsDigit(c) || c == '-'
  {
    if n < 0 then "-" + NatToString(-n)
    else
      var s := NatToString(n);
      assert s[0] in s;
      s
  }

  /** Reads an optional minus sign followed by one or more digits. */
  function ParseLong(s: string): (r: Option<int>)
    ensures r.Some? ==> |s| > 0
    ensures r.Some? && s[0] != '-' ==> r.value >= 0
  {
    if |s| > 0 && s[0] == '-' then
      if |s| > 1 && AllDigits(s[1..]) then Some(0 - DigitsValue(s[1..]) as int) else None
    else if |s| > 0 && AllDigits(s) then Some(DigitsValue(s))
    else None
  }

  /** Reading the digits of `n` back gives `n`. */
  lemma {:induction false} NatToStringValue(n: nat)
    ensures DigitsValue(NatToString(n)) == n
    decreases n
  {
    var s := NatToString(n);
    if n >= 10 {
      NatToStringValue(n / 10);
      assert s[..|s| - 1] == NatToString(n / 10);
    }
  }

  /** Parsing the rendering of any long gives the long back. */
  lemma LongRoundTrip(n: int)
    ensures ParseLong(LongToString(n)) == Some(n)
  {
    if n < 0 {
      NatToStringValue(-n);
      assert LongToString(n)[1..] == NatToString(-n);
    } else {
      NatToStringValue(n);
    }
  }

  /** Distinct longs render as distinct strings. */
  lemma LongToStringInjective(m: int, n: int)
    ensures LongToString(m) == LongToString(n) <==> m == n
  {
    if LongToString(m) == LongToString(n) {
      LongRoundTrip(m);
      LongRoundTrip(n);
    }
  }
}

=== FILE: persistence_service.dfy ===
/** The contract of the generic persistence service `IService<T>`: an entity
    store with findAll, findOne, create, update, delete and deleteAll.

    The store is an immutable value: a map from id to entity content, plus the
    next id the store will hand out. Every operation is a pure function that
    returns the new store, or the exception the service throws. What counts as
    a valid entity is a parameter, as it is for each concrete service. */
module PersistenceService {
  import opened Wrappers

  /** The exceptions the service throws. */
  datatype Error =
    | NullArgument          // a null entity: an invocation error
    | ConstraintViolation   // an entity that fails its constraints: data access
    | EntityNotFound        // delete or update of an id the store lacks: data access

  /** Spring's `DataAccessException` family, as opposed to invocation errors. */
  predicate IsDataAccessError(e: Error) {
    e.ConstraintViolation? || e.EntityNotFound?
  }

  /** A persisted entity: the id the store gave it and its content. */
  datatype Entity<T> = Entity(id: int, data: T)

  datatype Store<T> = Store(rows: map<int, T>, nextId: int)

  /** Ids come from a sequence that starts at 1 and only grows. */
  predicate WellFormed<T>(s: Store<T>) {
    && s.nextId >= 1
    && forall k :: k in s.rows ==> 1 <= k < s.nextId
  }

  /** The store invariant: well formed, and every stored entity satisfies its constraints. */
  predicate Inv<T>(s: Store<T>, valid: T -> bool) {
    && WellFormed(s)
    && forall k :: k in s.rows ==> valid(s.rows[k])
  }

  /** A fresh store holds nothing. */
  function EmptyStore<T>(): (s: Store<T>)
    ensures WellFormed(s)
    ensures s.rows == map[]
  {
    Store(map[], 1)
  }

  // ------------------------------------------------------------------ find

  /** `findOne(id)`: the entity with that id, or absent (not an error) when there is none. */
  function FindOne<T>(s: Store<T>, id: int): (r: Option<Entity<T>>)
    ensures r.None? <==> id !in s.rows
    ensures r.Some? ==> r.value.id == id && r.value.data == s.rows[id]
  {
    if id in s.rows then Some(Entity(id, s.rows[id])) else None
  }

  /** Ids of stored entities in `[lo, hi)`. */
  ghost function KeysBetween<T>(rows: map<int, T>, lo: int, hi: int): set<int> {
    set k | k in rows && lo <= k < hi
  }

  /** The stored entities with ids in `[lo, hi)`, in ascending id order. */
  function Collect<T(!new)>(rows: map<int, T>, lo: int, hi: int): (r: seq<Entity<T>>)
    ensures forall e :: e in r <==> lo <= e.id < hi && e.id in rows && rows[e.id] == e.data
    ensures forall i, j :: 0 <= i < j < |r| ==> r[i].id < r[j].id
    decreases hi - lo
  {
    if lo >= hi then []
    else
      var rest := Collect(rows, lo + 1, hi);
      assert forall j :: 0 <= j < |rest| ==> lo < rest[j].id by {
        forall j | 0 <= j < |rest| ensures lo < rest[j].id {
          assert rest[j] in rest;
        }
      }
      if lo in rows then [Entity(lo, rows[lo])] + rest else rest
  }

  /** `Collect` lists each stored id in the range exactly once. */
  lemma {:induction false} CollectSize<T(!new)>(rows: map<int, T>, lo: int, hi: int)
    ensures |Collect(rows, lo, hi)| == |KeysBetween(rows, lo, hi)|
    decreases hi - lo
  {
    if lo < hi {
      CollectSize(rows, lo + 1, hi);
      var here := if lo in rows then {lo} else {};
      assert KeysBetween(rows, lo, hi) == here + KeysBetween(rows, lo + 1, hi);
      assert here !! KeysBetween(rows, lo + 1, hi);
    } else {
      assert KeysBetween(rows, lo, hi) == {};
    }
  }

  /** `findAll()`: every stored entity once, in ascending id order. */
  function FindAll<T(!new)>(s: Store<T>): (r: seq<Entity<T>>)
    requires WellFormed(s)
    ensures forall e :: e in r <==> FindOne(s, e.id) == Some(e)
    ensures forall i, j :: 0 <= i < j < |r| ==> r[i].id < r[j].id
    ensures |r| == |s.rows|
  {
    CollectSize(s.rows, 1, s.nextId);
    assert KeysBetween(s.rows, 1, s.nextId) == s.rows.Keys;
    Collect(s.rows, 1, s.nextId)
  }

  // ---------------------------------------------------------------- create

  /** A store after a successful write, with the entity as the service returns it. */
  datatype Saved<T> = Saved(store: Store<T>, entity: Entity<T>)

  /** `create(entity)`: a null entity is an invocation error, an invalid one a
      data-access error; otherwise the entity is stored under a fresh id and
      returned with its content unchanged. */
  function Create<T>(s: Store<T>, e: Option<T>, valid: T -> bool): (r: Result<Saved<T>, Error>)
    requires WellFormed(s)
    ensures e.None? ==> r == Err(NullArgument)
    ensures e.Some? && !valid(e.value) ==> r == Err(ConstraintViolation)
    ensures r.Ok? <==> e.Some? && valid(e.value)
    ensures r.Ok? ==> && r.value.entity.data == e.value
                      && r.value.entity.id >= 1
                      && r.value.entity.id !in s.rows
                      && r.value.store.rows == s.rows[r.value.entity.id := e.value]
                      && WellFormed(r.value.store)
  {
    if e.None? then Err(NullArgument)
    else if !valid(e.value) then Err(ConstraintViolation)
    else Ok(Saved(Store(s.rows[s.nextId := e.value], s.nextId + 1), Entity(s.nextId, e.value)))
  }

  // ---------------------------------------------------------------- update

  /** `update(entity)`: a null entity is an invocation error, an invalid one a
      data-access error, and so is an id the store does not hold; otherwise the
      stored content under that id is replaced. */
  function Update<T>(s: Store<T>, e: Option<Entity<T>>, valid: T -> bool): (r: Result<Saved<T>, Error>)
    ensures e.None? ==> r == Err(NullArgument)
    ensures e.Some? && !valid(e.value.data) ==> r == Err(ConstraintViolation)
    ensures e.Some? && valid(e.value.data) && e.value.id !in s.rows ==> r == Err(EntityNotFound)
    ensures r.Ok? <==> e.Some? && valid(e.value.data) && e.value.id in s.rows
    ensures r.Ok? ==> && r.value.entity == e.value
                      && r.value.store.nextId == s.nextId
                      && r.value.store.rows.Keys == s.rows.Keys
                      && r.value.store.rows == s.rows[e.value.id := e.value.data]
  {
    if e.None? then Err(NullArgument)
    else if !valid(e.value.data) then Err(ConstraintViolation)
    else if e.value.id !in s.rows then Err(EntityNotFound)
    else Ok(Saved(Store(s.rows[e.value.id := e.value.data], s.nextId), e.value))
  }

  // ---------------------------------------------------------------- delete

  /** `delete(id)`: an id the store does not hold is a data-access error;
      otherwise that one entity is removed. */
  function Delete<T>(s: Store<T>, id: int): (r: Result<Store<T>, Error>)
    ensures r.Err? <==> id !in s.rows
    ensures r.Err? ==> IsDataAccessError(r.error)
    ensures r.Ok? ==> r.value.rows.Keys == s.rows.Keys - {id} && r.value.nextId == s.nextId
    ensures r.Ok? ==> forall k :: k in r.value.rows ==> r.value.rows[k] == s.rows[k]
  {
    if id !in s.rows then Err(EntityNotFound) else Ok(Store(s.rows - {id}, s.nextId))
  }

  /** `deleteAll()`: never fails; nothing is left, and ids are not reused. */
  function DeleteAll<T>(s: Store<T>): (r: Store<T>)
    ensures r.rows == map[]
    ensures r.nextId == s.nextId
  {
    Store(map[], s.nextId)
  }

  // ---------------------------------------------------------------- lemmas

  /** Every operation keeps the store invariant. */
  lemma OperationsPreserveInv<T>(s: Store<T>, valid: T -> bool, e: Option<T>, u: Option<Entity<T>>, id: int)
    requires Inv(s, valid)
    ensures Create(s, e, valid).Ok? ==> Inv(Create(s, e, valid).value.store, valid)
    ensures Update(s, u, valid).Ok? ==> Inv(Update(s, u, valid).value.store, valid)
    ensures Delete(s, id).Ok? ==> Inv(Delete(s, id).value, valid)
    ensures Inv(DeleteAll(s), valid)
  {
  }

  /** A created entity can be found under its new id, equal to the input, and
      is listed by findAll. */
  lemma CreateThenFind<T(!new)>(s: Store<T>, e: T, valid: T -> bool)
    requires WellFormed(s)
    requires valid(e)
    ensures var r := Create(s, Some(e), valid);
            && r.Ok?
            && FindOne(r.value.store, r.value.entity.id) == Some(Entity(r.value.entity.id, e))
            && r.value.entity in FindAll(r.value.store)
            && |FindAll(r.value.store)| == |FindAll(s)| + 1
  {
  }

  /** Create touches no entity that was already stored. */
  lemma CreateKeepsOthers<T>(s: Store<T>, e: Option<T>, valid: T -> bool, other: int)
    requires WellFormed(s)
    requires Create(s, e, valid).Ok?
    requires other != Create(s, e, valid).value.entity.id
    ensures FindOne(Create(s, e, valid).value.store, other) == FindOne(s, other)
  {
  }

  /** An update is visible through findOne, and only under its own id. */
  lemma UpdateThenFind<T>(s: Store<T>, e: Entity<T>, valid: T -> bool, other: int)
    requires e.id in s.rows
    requires valid(e.data)
    ensures var r := Update(s, Some(e), valid);
            && r.Ok?
            && FindOne(r.value.store, e.id) == Some(e)
            && (other != e.id ==> FindOne(r.value.store, other) == FindOne(s, other))
  {
  }

  /** Deleting a stored entity succeeds, after which findOne reports it absent
      and every other entity is untouched. */
  lemma DeleteThenFind<T>(s: Store<T>, id: int, other: int)
    requires id in s.rows
    ensures var r := Delete(s, id);
            && r.Ok?
            && FindOne(r.value, id).None?
            && (other != id ==> FindOne(r.value, other) == FindOne(s, other))
  {
  }

  /** The store never holds a negative id, so deleting one is a data-access error. */
  lemma DeleteNegativeIdFails<T>(s: Store<T>, id: int)
    requires WellFormed(s)
    requires id < 0
    ensures Delete(s, id).Err? && IsDataAccessError(Delete(s, id).error)
  {
  }

  /** After deleteAll, findAll is empty; a second deleteAll changes nothing. */
  lemma DeleteAllEmpties<T(!new)>(s: Store<T>)
    requires WellFormed(s)
    ensures FindAll(DeleteAll(s)) == []
    ensures DeleteAll(DeleteAll(s)) == DeleteAll(s)
  {
  }
}

=== FILE: role_service.dfy ===
/** The Role service `IRoleService`: the generic persistence service at entity
    type Role, plus `search`, which keeps the stored roles that satisfy every
    (key, value) constraint it is given. A key `"~" + field` negates the
    constraint on that field. At this level the negation marker comes BEFORE
    the field name; in the query string it comes after. */
module RoleService {
  import opened Wrappers
  import PS = PersistenceService
  import SearchUtil

  type PrivilegeId = int

  /** A role: a name (null in Java when unset) and its privileges, which search
      does not inspect. */
  datatype Role = Role(name: Option<string>, privileges: set<PrivilegeId>)

  /** The Role constraint: a role is invalid exactly when its name is null. */
  predicate ValidRole(r: Role) {
    r.name.Some?
  }

  /** `new Role(name, privileges)`: always a valid role. */
  function NewRole(name: string, privileges: set<PrivilegeId>): (r: Role)
    ensures ValidRole(r)
    ensures r.name == Some(name) && r.privileges == privileges
  {
    Role(Some(name), privileges)
  }

  /** What the tests do to make a role break its constraint: clear the name. */
  function Invalidate(r: Role): (r': Role)
    ensures !ValidRole(r')
    ensures r'.privileges == r.privileges
  {
    r.(name := None)
  }

  type RoleStore = PS.Store<Role>
  type StoredRole = PS.Entity<Role>

  /** Creating an invalidated role is a data-access error, never an invocation error. */
  lemma CreateInvalidRoleFails(s: RoleStore, r: Role)
    requires PS.WellFormed(s)
    ensures var c := PS.Create(s, Some(Invalidate(r)), ValidRole);
            c == Err(PS.ConstraintViolation) && PS.IsDataAccessError(c.error)
  {
  }

  /** Updating a stored role with its name cleared is a data-access error, and the
      store is left as it was since no new store is returned. */
  lemma UpdateInvalidRoleFails(s: RoleStore, e: StoredRole)
    ensures PS.Update(s, Some(e.(data := Invalidate(e.data))), ValidRole) == Err(PS.ConstraintViolation)
  {
  }

  // ---------------------------------------------------------------- search

  /** The value half of a constraint pair: a `Long` or a `String`. */
  datatype Value = LongValue(n: int) | StringValue(s: string)

  /** One `ImmutablePair<String, ?>` handed to `search`. */
  datatype Constraint = Constraint(key: string, value: Value)

  /** A constraint after its key has been read. */
  datatype Filter = IdIs(id: int, negated: bool) | NameIs(name: string, negated: bool)

  datatype SearchError = MalformedConstraint(key: string)

  /** The key of a constraint on `field`, negated or not. */
  function Key(field: string, negated: bool): string {
    (if negated then [SearchUtil.NEGATION] else []) + field
  }

  /** Reads a constraint: an optional leading `~`, then `id` with a long value
      or `name` with a string value; anything else is malformed. */
  function ParseConstraint(c: Constraint): (r: Result<Filter, SearchError>)
    ensures r.Ok? && r.value.IdIs? ==>
              c == Constraint(Key(SearchUtil.ID, r.value.negated), LongValue(r.value.id))
    ensures r.Ok? && r.value.NameIs? ==>
              c == Constraint(Key(SearchUtil.NAME, r.value.negated), StringValue(r.value.name))
    ensures r.Err? ==> r.error == MalformedConstraint(c.key)
  {
    var negated := |c.key| > 0 && c.key[0] == SearchUtil.NEGATION;
    var field := if negated then c.key[1..] else c.key;
    assert c.key == Key(field, negated);
    if field == SearchUtil.ID && c.value.LongValue? then Ok(IdIs(c.value.n, negated))
    else if field == SearchUtil.NAME && c.value.StringValue? then Ok(NameIs(c.value.s, negated))
    else Err(MalformedConstraint(c.key))
  }

  /** Every well-formed constraint on id or name is read back as what it says. */
  lemma ParseConstraintOfKey(negated: bool, id: int, name: string)
    ensures ParseConstraint(Constraint(Key(SearchUtil.ID, negated), LongValue(id))) == Ok(IdIs(id, negated))
    ensures ParseConstraint(Constraint(Key(SearchUtil.NAME, negated), StringValue(name))) == Ok(NameIs(name, negated))
  {
    var k1 := Key(SearchUtil.ID, negated);
    var k2 := Key(SearchUtil.NAME, negated);
    if negated {
      assert k1[1..] == SearchUtil.ID;
      assert k2[1..] == SearchUtil.NAME;
    }
  }

  /** Whether a stored role satisfies one filter; a negated filter is satisfied
      exactly when the plain one is not. */
  predicate Satisfies(e: StoredRole, f: Filter) {
    match f
    case IdIs(id, negated) => (e.id == id) != negated
    case NameIs(name, negated) => (e.data.name == Some(name)) != negated
  }

  predicate SatisfiesAll(e: StoredRole, fs: seq<Filter>) {
    forall i :: 0 <= i < |fs| ==> Satisfies(e, fs[i])
  }

  /** Reads every constraint, or reports the first malformed one. */
  function ParseConstraints(cs: seq<Constraint>): Result<seq<Filter>, SearchError>
    decreases |cs|
  {
    if |cs| == 0 then Ok([])
    else
      match ParseConstraint(cs[0])
      case Err(err) => Err(err)
      case Ok(f) =>
        match ParseConstraints(cs[1..])
        case Err(err) => Err(err)
        case Ok(fs) => Ok([f] + fs)
  }

  /** A list of constraints is read exactly when each constraint is, one filter
      per constraint, in order. */
  lemma {:induction false} ParseConstraintsReadsEach(cs: seq<Constraint>)
    ensures ParseConstraints(cs).Ok? <==> WellFormedConstraints(cs)
    ensures ParseConstraints(cs).Ok? ==>
              && |ParseConstraints(cs).value| == |cs|
              && forall i :: 0 <= i < |cs| ==> ParseConstraints(cs).value[i] == ParseConstraint(cs[i]).value
    decreases |cs|
  {
    if |cs| > 0 {
      var tail := cs[1..];
      ParseConstraintsReadsEach(tail);
      assert forall i :: 1 <= i < |cs| ==> cs[i] == tail[i - 1];
      if !WellFormedConstraints(tail) {
        var j :| 0 <= j < |tail| && ParseConstraint(tail[j]).Err?;
        assert ParseConstraint(cs[j + 1]).Err?;
      }
    }
  }

  /** The roles of `es` that satisfy all filters, in their original order. */
  function Select(es: seq<StoredRole>, fs: seq<Filter>): (r: seq<StoredRole>)
    ensures forall e :: e in r <==> e in es && SatisfiesAll(e, fs)
    ensures |r| <= |es|
    decreases |es|
  {
    if |es| == 0 then []
    else
      var rest := Select(es[1..], fs);
      assert forall e :: e in es <==> e == es[0] || e in es[1..];
      if SatisfiesAll(es[0], fs) then [es[0]] + rest else rest
  }

  /** Every constraint names id or name, with a value of the matching type. */
  predicate WellFormedConstraints(cs: seq<Constraint>) {
    forall i :: 0 <= i < |cs| ==> ParseConstraint(cs[i]).Ok?
  }

  /** A stored role meets every constraint. */
  predicate Matches(e: StoredRole, cs: seq<Constraint>)
    requires WellFormedConstraints(cs)
  {
    forall i :: 0 <= i < |cs| ==> Satisfies(e, ParseConstraint(cs[i]).value)
  }

  /** `search(constraints...)`: the stored roles that satisfy every constraint.
      It fails only on a malformed constraint. */
  function Search(s: RoleStore, cs: seq<Constraint>): (r: Result<seq<StoredRole>, SearchError>)
    requires PS.WellFormed(s)
    ensures r.Ok? <==> WellFormedConstraints(cs)
    ensures r.Ok? ==> forall e :: e in r.value <==> PS.FindOne(s, e.id) == Some(e) && Matches(e, cs)
  {
    ParseConstraintsReadsEach(cs);
    match ParseConstraints(cs)
    case Err(err) => Err(err)
    case Ok(fs) => Ok(Select(PS.FindAll(s), fs))
  }

  // ---------------------------------------------------------- search lemmas

  /** A search by one well-formed constraint keeps exactly the stored roles that satisfy it. */
  lemma SearchOne(s: RoleStore, c: Constraint, e: StoredRole)
    requires PS.WellFormed(s)
    requires ParseConstraint(c).Ok?
    ensures var r := Search(s, [c]);
            r.Ok? && (e in r.value <==> PS.FindOne(s, e.id) == Some(e) && Satisfies(e, ParseConstraint(c).value))
  {
    var cs := [c];
    assert cs[0] == c;
    assert WellFormedConstraints(cs);
    assert Matches(e, cs) <==> Satisfies(e, ParseConstraint(cs[0]).value);
  }

  /** A search by two well-formed constraints keeps exactly the stored roles that satisfy both. */
  lemma SearchTwo(s: RoleStore, c0: Constraint, c1: Constraint, e: StoredRole)
    requires PS.WellFormed(s)
    requires ParseConstraint(c0).Ok? && ParseConstraint(c1).Ok?
    ensures var r := Search(s, [c0, c1]);
            && r.Ok?
            && (e in r.value <==>
                  && PS.FindOne(s, e.id) == Some(e)
                  && Satisfies(e, ParseConstraint(c0).value)
                  && Satisfies(e, ParseConstraint(c1).value))
  {
    var cs := [c0, c1];
    assert cs[0] == c0 && cs[1] == c1;
    assert WellFormedConstraints(cs);
    assert Matches(e, cs) <==> Satisfies(e, ParseConstraint(cs[0]).value) && Satisfies(e, ParseConstraint(cs[1]).value);
  }

  /** Searching by a stored role's own id finds it; by any other id, it does not. */
  lemma SearchById(s: RoleStore, e: StoredRole, id: int)
    requires PS.WellFormed(s)
    requires PS.FindOne(s, e.id) == Some(e)
    ensures var r := Search(s, [Constraint(SearchUtil.ID, LongValue(id))]);
            r.Ok? && (e in r.value <==> id == e.id)
  {
    ParseConstraintOfKey(false, id, "");
    assert Key(SearchUtil.ID, false) == SearchUtil.ID;
    SearchOne(s, Constraint(SearchUtil.ID, LongValue(id)), e);
  }

  /** Searching by a name finds exactly the stored roles carrying it. */
  lemma SearchByName(s: RoleStore, e: StoredRole, name: string)
    requires PS.WellFormed(s)
    requires PS.FindOne(s, e.id) == Some(e)
    ensures var r := Search(s, [Constraint(SearchUtil.NAME, StringValue(name))]);
            r.Ok? && (e in r.value <==> e.data.name == Some(name))
  {
    ParseConstraintOfKey(false, 0, name);
    assert Key(SearchUtil.NAME, false) == SearchUtil.NAME;
    SearchOne(s, Constraint(SearchUtil.NAME, StringValue(name)), e);
  }

  /** Constraints are conjunctive: searching by id and name together finds a role
      exactly when searching by each alone does, whichever comes first. */
  lemma SearchIsConjunctive(s: RoleStore, e: StoredRole, id: int, name: string)
    requires PS.WellFormed(s)
    ensures var byName := Search(s, [Constraint(SearchUtil.NAME, StringValue(name))]);
            var byId := Search(s, [Constraint(SearchUtil.ID, LongValue(id))]);
            var both := Search(s, [Constraint(SearchUtil.NAME, StringValue(name)), Constraint(SearchUtil.ID, LongValue(id))]);
            && byName.Ok? && byId.Ok? && both.Ok?
            && (e in both.value <==> e in byName.value && e in byId.value)
  {
    var byName := Constraint(SearchUtil.NAME, StringValue(name));
    var byId := Constraint(SearchUtil.ID, LongValue(id));
    ParseConstraintOfKey(false, id, name);
    assert Key(SearchUtil.ID, false) == SearchUtil.ID;
    assert Key(SearchUtil.NAME, false) == SearchUtil.NAME;
    SearchOne(s, byName, e);
    SearchOne(s, byId, e);
    SearchTwo(s, byName, byId, e);
  }

  /** The order in which constraints are passed does not change the result. */
  lemma {:induction false} SearchOrderIrrelevant(s: RoleStore, cs1: seq<Constraint>, cs2: seq<Constraint>)
    requires PS.WellFormed(s)
    requires forall c :: c in cs1 <==> c in cs2
    ensures Search(s, cs1).Ok? <==> Search(s, cs2).Ok?
    ensures Search(s, cs1).Ok? ==> Search(s, cs1).value == Search(s, cs2).value
  {
    assert WellFormedConstraints(cs1) <==> (forall c :: c in cs1 ==> ParseConstraint(c).Ok?);
    assert WellFormedConstraints(cs2) <==> (forall c :: c in cs2 ==> ParseConstraint(c).Ok?);
    ParseConstraintsReadsEach(cs1);
    ParseConstraintsReadsEach(cs2);
    if Search(s, cs1).Ok? {
      var fs1 := ParseConstraints(cs1).value;
      var fs2 := ParseConstraints(cs2).value;
      forall e ensures SatisfiesAll(e, fs1) <==> SatisfiesAll(e, fs2) {
        SatisfiesSameFilters(e, cs1, fs1, cs2, fs2);
        SatisfiesSameFilters(e, cs2, fs2, cs1, fs1);
      }
      SelectSamePredicate(PS.FindAll(s), fs1, fs2);
    }
  }

  lemma SatisfiesSameFilters(e: StoredRole, cs1: seq<Constraint>, fs1: seq<Filter>, cs2: seq<Constraint>, fs2: seq<Filter>)
    requires forall c :: c in cs1 ==> c in cs2
    requires ParseConstraints(cs1) == Ok(fs1)
    requires ParseConstraints(cs2) == Ok(fs2)
    ensures SatisfiesAll(e, fs2) ==> SatisfiesAll(e, fs1)
  {
    ParseConstraintsReadsEach(cs1);
    ParseConstraintsReadsEach(cs2);
    if SatisfiesAll(e, fs2) {
      forall i | 0 <= i < |fs1| ensures Satisfies(e, fs1[i]) {
        assert cs1[i] in cs2;
        var j :| 0 <= j < |cs2| && cs2[j] == cs1[i];
        assert fs2[j] == fs1[i];
      }
    }
  }

  lemma {:induction false} SelectSamePredicate(es: seq<StoredRole>, fs1: seq<Filter>, fs2: seq<Filter>)
    requires forall e :: SatisfiesAll(e, fs1) <==> SatisfiesAll(e, fs2)
    ensures Select(es, fs1) == Select(es, fs2)
    decreases |es|
  {
    if |es| > 0 {
      SelectSamePredicate(es[1..], fs1, fs2);
    }
  }

  /** A negated constraint keeps exactly the stored roles the plain one drops. */
  lemma NegationComplements(s: RoleStore, e: StoredRole, field: string, v: Value)
    requires PS.Inv(s, ValidRole)
    requires PS.FindOne(s, e.id) == Some(e)
    requires (field == SearchUtil.ID && v.LongValue?) || (field == SearchUtil.NAME && v.StringValue?)
    ensures var plain := Search(s, [Constraint(Key(field, false), v)]);
            var negated := Search(s, [Constraint(Key(field, true), v)]);
            && plain.Ok? && negated.Ok?
            && (e in negated.value <==> e !in plain.value)
  {
    if v.LongValue? {
      ParseConstraintOfKey(false, v.n, "");
      ParseConstraintOfKey(true, v.n, "");
    } else {
      ParseConstraintOfKey(false, 0, v.s);
      ParseConstraintOfKey(true, 0, v.s);
    }
    SearchOne(s, Constraint(Key(field, false), v), e);
    SearchOne(s, Constraint(Key(field, true), v), e);
  }

  /** `("~name", e1.name)` drops `e1` and keeps a role with another name. */
  lemma SearchByNegatedName(s: RoleStore, e1: StoredRole, e2: StoredRole)
    requires PS.Inv(s, ValidRole)
    requires PS.FindOne(s, e1.id) == Some(e1) && PS.FindOne(s, e2.id) == Some(e2)
    requires ValidRole(e1.data) && e2.data.name != e1.data.name
    ensures var r := Search(s, [Constraint(Key(SearchUtil.NAME, true), StringValue(e1.data.name.value))]);
            r.Ok? && e1 !in r.value && e2 in r.value
  {
    var c := Constraint(Key(SearchUtil.NAME, true), StringValue(e1.data.name.value));
    ParseConstraintOfKey(true, 0, e1.data.name.value);
    SearchOne(s, c, e1);
    SearchOne(s, c, e2);
  }

  /** `("~id", e1.id)` drops `e1` and keeps every other stored role. */
  lemma SearchByNegatedId(s: RoleStore, e1: StoredRole, e2: StoredRole)
    requires PS.WellFormed(s)
    requires PS.FindOne(s, e1.id) == Some(e1) && PS.FindOne(s, e2.id) == Some(e2)
    requires e1.id != e2.id
    ensures var r := Search(s, [Constraint(Key(SearchUtil.ID, true), LongValue(e1.id))]);
            r.Ok? && e1 !in r.value && e2 in r.value
  {
    var c := Constraint(Key(SearchUtil.ID, true), LongValue(e1.id));
    ParseConstraintOfKey(true, e1.id, "");
    SearchOne(s, c, e1);
    SearchOne(s, c, e2);
  }

  // ----------------------------------------------------- from a query string

  /** The service constraint for an id criterion: `~` moves before the field name. */
  function IdConstraint(c: SearchUtil.Criterion<int>): Constraint {
    Constraint(Key(SearchUtil.ID, c.negated), LongValue(c.value))
  }

  /** The service constraint for a name criterion: `~` moves before the field name. */
  function NameConstraint(c: SearchUtil.Criterion<string>): Constraint {
    Constraint(Key(SearchUtil.NAME, c.negated), StringValue(c.value))
  }

  /** The service constraints a decoded query string stands for, id first. */
  function QueryConstraints(q: SearchUtil.Query): (cs: seq<Constraint>)
    ensures |cs| == (if q.id.Some? then 1 else 0) + (if q.name.Some? then 1 else 0)
    ensures q.id.Some? ==> cs[0] == IdConstraint(q.id.value)
    ensures q.name.Some? ==> NameConstraint(q.name.value) in cs
  {
    (if q.id.Some? then [IdConstraint(q.id.value)] else [])
    + (if q.name.Some? then [NameConstraint(q.name.value)] else [])
  }

  /** The service reads each constraint of a query back as the criterion it came from. */
  lemma CriterionConstraintsParse(id: SearchUtil.Criterion<int>, name: SearchUtil.Criterion<string>)
    ensures ParseConstraint(IdConstraint(id)) == Ok(IdIs(id.value, id.negated))
    ensures ParseConstraint(NameConstraint(name)) == Ok(NameIs(name.value, name.negated))
  {
    ParseConstraintOfKey(id.negated, id.value, "");
    ParseConstraintOfKey(name.negated, 0, name.value);
  }

  /** Running the constraints of a decoded query keeps exactly the stored roles
      that meet each present criterion under its own negation flag. */
  lemma SearchQueryConstraints(s: RoleStore, e: StoredRole, q: SearchUtil.Query)
    requires PS.Inv(s, ValidRole)
    requires PS.FindOne(s, e.id) == Some(e)
    ensures var r := Search(s, QueryConstraints(q));
            && r.Ok?
            && (e in r.value <==>
                  && (q.id.Some? ==> (e.id == q.id.value.value) != q.id.value.negated)
                  && (q.name.Some? ==> (e.data.name == Some(q.name.value.value)) != q.name.value.negated))
  {
    var cs := QueryConstraints(q);
    match (q.id, q.name)
    case (Some(i), Some(n)) =>
      CriterionConstraintsParse(i, n);
      assert cs == [IdConstraint(i), NameConstraint(n)];
      SearchTwo(s, IdConstraint(i), NameConstraint(n), e);
    case (Some(i), None) =>
      CriterionConstraintsParse(i, SearchUtil.Criterion("", false));
      assert cs == [IdConstraint(i)];
      SearchOne(s, IdConstraint(i), e);
    case (None, Some(n)) =>
      CriterionConstraintsParse(SearchUtil.Criterion(0, false), n);
      assert cs == [NameConstraint(n)];
      SearchOne(s, NameConstraint(n), e);
    case (None, None) =>
      assert cs == [];
      assert WellFormedConstraints(cs) && Matches(e, cs);
  }

  /** Encoding a search as a query string, reading it back and running it finds
      exactly the stored roles that meet each present field under its own
      negation flag. */
  lemma QueryStringSearch(s: RoleStore, e: StoredRole, id: Option<int>, negateId: bool, name: Option<string>, negateName: bool)
    requires PS.Inv(s, ValidRole)
    requires PS.FindOne(s, e.id) == Some(e)
    requires name.Some? ==> SearchUtil.SEPARATOR !in name.value
    ensures var q := SearchUtil.ParseQueryString(SearchUtil.ConstructQueryStringNegated(id, negateId, name, negateName));
            && q.Some?
            && var r := Search(s, QueryConstraints(q.value));
            && r.Ok?
            && (e in r.value <==>
                  && (id.Some? ==> (e.id == id.value) != negateId)
                  && (name.Some? ==> (e.data.name == name) != negateName))
  {
    SearchUtil.ConstructParseRoundTrip(id, negateId, name, negateName);
    SearchQueryConstraints(s, e, SearchUtil.Intended(id, negateId, name, negateName));
  }
}

=== FILE: search_util.dfy ===
/** The search query-string encoder `SearchUtil.constructQueryString`, and the
    parser a consumer of the query string needs to read it back.

    A query string is a `,`-separated list of tokens `field [~] = value`, the id
    token first; the negation marker `~` sits between the field and `=`. */
module SearchUtil {
  import opened Wrappers
  import Decimal

  /** Field name of the id constraint. */
  const ID: string := "id"
  /** Field name of the name constraint. */
  const NAME: string := "name"
  /** Separates a field (and its negation marker) from the value. */
  const OP: char := '='
  /** Marks a negated constraint; written right after the field name. */
  const NEGATION: char := '~'
  /** Separates two tokens. */
  const SEPARATOR: char := ','

  // ---------------------------------------------------------------- strings

  /** Position of the first occurrence of `c` in `s`. */
  function IndexOf(s: string, c: char): (i: nat)
    requires c in s
    ensures i < |s| && s[i] == c
    ensures c !in s[..i]
    decreases |s|
  {
    if s[0] == c then 0
    else
      var j := IndexOf(s[1..], c);
      assert s[..j + 1] == [s[0]] + s[1..][..j];
      j + 1
  }

  /** The first occurrence of `c` in `a + [c] + b`, when `a` holds none, ends `a`. */
  lemma IndexOfAfterPrefix(a: string, c: char, b: string)
    requires c !in a
    ensures IndexOf(a + [c] + b, c) == |a|
  {
    var s := a + [c] + b;
    assert s[..|a|] == a;
    assert s[|a|] == c;
  }

  /** Tokens glued together with the separator; no tokens give the empty string. */
  function Join(parts: seq<string>): (s: string)
    decreases |parts|
  {
    if |parts| == 0 then ""
    else if |parts| == 1 then parts[0]
    else parts[0] + [SEPARATOR] + Join(parts[1..])
  }

  /** Cuts a string at every separator. */
  function Split(s: string): (parts: seq<string>)
    ensures |parts| > 0
    ensures forall i :: 0 <= i < |parts| ==> SEPARATOR !in parts[i]
    decreases |s|
  {
    if SEPARATOR !in s then [s]
    else
      var i := IndexOf(s, SEPARATOR);
      [s[..i]] + Split(s[i + 1..])
  }

  /** Cutting a string and gluing the pieces back gives the string. */
  lemma {:induction false} JoinSplit(s: string)
    ensures Join(Split(s)) == s
    decreases |s|
  {
    if SEPARATOR in s {
      var i := IndexOf(s, SEPARATOR);
      JoinSplit(s[i + 1..]);
      assert s == s[..i] + [SEPARATOR] + s[i + 1..];
    }
  }

  /** Cutting stops at the first separator. */
  lemma SplitAfterPrefix(a: string, b: string)
    requires SEPARATOR !in a
    ensures Split(a + [SEPARATOR] + b) == [a] + Split(b)
  {
    var s := a + [SEPARATOR] + b;
    IndexOfAfterPrefix(a, SEPARATOR, b);
    assert s[..|a|] == a;
    assert s[|a| + 1..] == b;
  }

  /** Gluing separator-free tokens and cutting the result gives the tokens. */
  lemma {:induction false} SplitJoin(parts: seq<string>)
    requires |parts| > 0
    requires forall i :: 0 <= i < |parts| ==> SEPARATOR !in parts[i]
    ensures Split(Join(parts)) == parts
    decreases |parts|
  {
    if |parts| > 1 {
      SplitJoin(parts[1..]);
      SplitAfterPrefix(parts[0], Join(parts[1..]));
      assert parts == [parts[0]] + parts[1..];
    }
  }

  // ---------------------------------------------------------------- encoder

  /** One constraint as text: the field, the marker when negated, `=`, the value. */
  function Token(field: string, negated: bool, value: string): string {
    field + (if negated then [NEGATION] else []) + [OP] + value
  }

  function IdToken(id: int, negated: bool): string {
    Token(ID, negated, Decimal.LongToString(id))
  }

  function NameToken(name: string, negated: bool): string {
    Token(NAME, negated, name)
  }

  /** The tokens of the present fields, id before name. */
  function Tokens(id: Option<int>, negateId: bool, name: Option<string>, negateName: bool): seq<string> {
    (if id.Some? then [IdToken(id.value, negateId)] else [])
    + (if name.Some? then [NameToken(name.value, negateName)] else [])
  }

  /** `constructQueryString(Long id, boolean negateId, String name, boolean negateName)`:
      never fails; an absent field contributes no token, and with both fields
      absent the result is the empty string. */
  function ConstructQueryStringNegated(id: Option<int>, negateId: bool, name: Option<string>, negateName: bool): (q: string)
    ensures q == "" <==> id.None? && name.None?
    ensures id.Some? ==> IdToken(id.value, negateId) <= q
    ensures id.Some? && name.None? ==> q == IdToken(id.value, negateId)
    ensures id.Some? && name.Some? ==>
              q == IdToken(id.value, negateId) + [SEPARATOR] + NameToken(name.value, negateName)
    ensures id.None? && name.Some? ==> q == NameToken(name.value, negateName)
  {
    var toks := Tokens(id, negateId, name, negateName);
    assert id.Some? && name.Some? ==> Join(toks[1..]) == NameToken(name.value, negateName) by {
      if id.Some? && name.Some? {
        assert toks[1..] == [NameToken(name.value, negateName)];
      }
    }
    Join(toks)
  }

  /** `constructQueryString(Long id, String name)`: neither field negated. */
  function ConstructQueryString(id: Option<int>, name: Option<string>): (q: string)
    ensures q == ConstructQueryStringNegated(id, false, name, false)
    ensures NEGATION !in q <==> name.None? || NEGATION !in name.value
  {
    var q := ConstructQueryStringNegated(id, false, name, false);
    assert id.Some? ==> NEGATION !in Decimal.LongToString(id.value);
    q
  }

  // ---------------------------------------------------------------- decoder

  /** A constraint as read back from the query string. */
  datatype Criterion<V> = Criterion(value: V, negated: bool)

  /** What a query string asks for: an id criterion and a name criterion, each optional. */
  datatype Query = Query(id: Option<Criterion<int>>, name: Option<Criterion<string>>)

  /** A token split into its parts before the field name is interpreted. */
  datatype RawToken = RawToken(field: string, negated: bool, value: string)

  /** Splits a token at its first `=`; a trailing `~` on the left marks negation. */
  function ParseToken(t: string): (r: Option<RawToken>)
    ensures r.Some? <==> OP in t
    ensures r.Some? ==> Token(r.value.field, r.value.negated, r.value.value) == t
    ensures r.Some? ==> OP !in r.value.field
    ensures r.Some? && !r.value.negated ==>
              |r.value.field| == 0 || r.value.field[|r.value.field| - 1] != NEGATION
  {
    if OP !in t then None
    else
      var i := IndexOf(t, OP);
      var lhs := t[..i];
      assert t == lhs + [OP] + t[i + 1..];
      if |lhs| > 0 && lhs[|lhs| - 1] == NEGATION then
        assert lhs == lhs[..|lhs| - 1] + [NEGATION];
        Some(RawToken(lhs[..|lhs| - 1], true, t[i + 1..]))
      else Some(RawToken(lhs, false, t[i + 1..]))
  }

  lemma ParseTokenOfToken(field: string, negated: bool, value: string)
    requires OP !in field
    requires |field| > 0 && field[|field| - 1] != NEGATION
    ensures ParseToken(Token(field, negated, value)) == Some(RawToken(field, negated, value))
  {
    var lhs := field + (if negated then [NEGATION] else []);
    assert OP !in lhs;
    assert Token(field, negated, value) == lhs + [OP] + value;
    IndexOfAfterPrefix(lhs, OP, value);
    var t := Token(field, negated, value);
    assert IndexOf(t, OP) == |lhs|;
    assert t[..|lhs|] == lhs;
    assert t[|lhs| + 1..] == value;
    if negated {
      assert lhs[..|lhs| - 1] == field;
    } else {
      assert lhs == field;
    }
  }

  function IdCriterion(t: RawToken): Option<Criterion<int>> {
    if t.field != ID then None
    else match Decimal.ParseLong(t.value)
      case None => None
      case Some(n) => Some(Criterion(n, t.negated))
  }

  function NameCriterion(t: RawToken): Option<Criterion<string>> {
    if t.field != NAME then None else Some(Criterion(t.value, t.negated))
  }

  /** Reads a query string made of one token: an id token or a name token. */
  function ParseSingle(t: string): (r: Option<Query>)
    ensures r.Some? ==> r.value.id.None? || r.value.name.None?
  {
    match ParseToken(t)
    case None => None
    case Some(raw) =>
      if raw.field == ID then
        match IdCriterion(raw)
        case None => None
        case Some(c) => Some(Query(Some(c), None))
      else
        match NameCriterion(raw)
        case None => None
        case Some(c) => Some(Query(None, Some(c)))
  }

  /** Reads a query string made of two tokens: an id token, then a name token. */
  function ParsePair(t0: string, t1: string): (r: Option<Query>)
    ensures r.Some? ==> r.value.id.Some? && r.value.name.Some?
  {
    var raw0 := ParseToken(t0);
    var raw1 := ParseToken(t1);
    if raw0.None? || raw1.None? then None
    else
      var c0 := IdCriterion(raw0.value);
      var c1 := NameCriterion(raw1.value);
      if c0.Some? && c1.Some? then Some(Query(Some(c0.value), Some(c1.value))) else None
  }

  /** Reads a query string: empty, one id or name token, or an id token then a name token. */
  function ParseQueryString(q: string): (r: Option<Query>)
    ensures q == "" ==> r == Some(Query(None, None))
    ensures r.Some? && r.value.id.Some? && r.value.name.Some? ==> |Split(q)| == 2
  {
    if q == "" then Some(Query(None, None))
    else
      var parts := Split(q);
      if |parts| == 1 then ParseSingle(parts[0])
      else if |parts| == 2 then ParsePair(parts[0], parts[1])
      else None
  }

  /** The query the caller meant: a negation flag only matters for a present field. */
  function Intended(id: Option<int>, negateId: bool, name: Option<string>, negateName: bool): Query {
    Query(
      if id.Some? then Some(Criterion(id.value, negateId)) else None,
      if name.Some? then Some(Criterion(name.value, negateName)) else None)
  }

  lemma IdTokenParses(id: int, negated: bool)
    ensures SEPARATOR !in IdToken(id, negated)
    ensures ParseToken(IdToken(id, negated)) == Some(RawToken(ID, negated, Decimal.LongToString(id)))
  {
    var v := Decimal.LongToString(id);
    assert SEPARATOR !in v;
    ParseTokenOfToken(ID, negated, v);
  }

  lemma NameTokenParses(name: string, negated: bool)
    requires SEPARATOR !in name
    ensures SEPARATOR !in NameToken(name, negated)
    ensures ParseToken(NameToken(name, negated)) == Some(RawToken(NAME, negated, name))
  {
    ParseTokenOfToken(NAME, negated, name);
  }

  /** A separator-free string is a single piece. */
  lemma SplitSingle(t: string)
    requires SEPARATOR !in t
    ensures Split(t) == [t]
  {
  }

  lemma ParseIdOnly(id: int, negated: bool)
    ensures ParseQueryString(IdToken(id, negated)) == Some(Query(Some(Criterion(id, negated)), None))
  {
    var q := IdToken(id, negated);
    IdTokenParses(id, negated);
    Decimal.LongRoundTrip(id);
    SplitSingle(q);
  }

  lemma ParseNameOnly(name: string, negated: bool)
    requires SEPARATOR !in name
    ensures ParseQueryString(NameToken(name, negated)) == Some(Query(None, Some(Criterion(name, negated))))
  {
    var q := NameToken(name, negated);
    NameTokenParses(name, negated);
    SplitSingle(q);
  }

  /** A two-piece query string is read as an id token then a name token. */
  lemma ParseQueryStringOfPair(t0: string, t1: string)
    requires SEPARATOR !in t0 && SEPARATOR !in t1
    ensures ParseQueryString(t0 + [SEPARATOR] + t1) == ParsePair(t0, t1)
  {
    var q := t0 + [SEPARATOR] + t1;
    SplitAfterPrefix(t0, t1);
    SplitSingle(t1);
    assert Split(q) == [t0, t1];
    assert q[|t0|] == SEPARATOR;
  }

  lemma ParsePairOfTokens(t0: string, t1: string, id: Criterion<int>, name: Criterion<string>)
    requires ParseToken(t0) == Some(RawToken(ID, id.negated, Decimal.LongToString(id.value)))
    requires ParseToken(t1) == Some(RawToken(NAME, name.negated, name.value))
    ensures ParsePair(t0, t1) == Some(Query(Some(id), Some(name)))
  {
    Decimal.LongRoundTrip(id.value);
  }

  lemma ParseIdAndName(id: int, negateId: bool, name: string, negateName: bool)
    requires SEPARATOR !in name
    ensures ParseQueryString(IdToken(id, negateId) + [SEPARATOR] + NameToken(name, negateName))
            == Some(Query(Some(Criterion(id, negateId)), Some(Criterion(name, negateName))))
  {
    IdTokenParses(id, negateId);
    NameTokenParses(name, negateName);
    ParseQueryStringOfPair(IdToken(id, negateId), NameToken(name, negateName));
    ParsePairOfTokens(IdToken(id, negateId), NameToken(name, negateName), Criterion(id, negateId), Criterion(name, negateName));
  }

  /** Reading back what the encoder wrote recovers every present field with its
      own negation flag, as long as the name holds no separator. */
  lemma ConstructParseRoundTrip(id: Option<int>, negateId: bool, name: Option<string>, negateName: bool)
    requires name.Some? ==> SEPARATOR !in name.value
    ensures ParseQueryString(ConstructQueryStringNegated(id, negateId, name, negateName))
            == Some(Intended(id, negateId, name, negateName))
  {
    if id.Some? && name.Some? {
      ParseIdAndName(id.value, negateId, name.value, negateName);
    } else if id.Some? {
      ParseIdOnly(id.value, negateId);
    } else if name.Some? {
      ParseNameOnly(name.value, negateName);
    }
  }

  /** A token's parts are fixed by its text, for a field the reader can cut off. */
  lemma TokenInjective(field: string, n1: bool, v1: string, n2: bool, v2: string)
    requires OP !in field
    requires |field| > 0 && field[|field| - 1] != NEGATION
    ensures Token(field, n1, v1) == Token(field, n2, v2) <==> n1 == n2 && v1 == v2
  {
    ParseTokenOfToken(field, n1, v1);
    ParseTokenOfToken(field, n2, v2);
  }

  lemma IdTokenInjective(m: int, f: bool, n: int, g: bool)
    ensures IdToken(m, f) == IdToken(n, g) <==> m == n && f == g
  {
    TokenInjective(ID, f, Decimal.LongToString(m), g, Decimal.LongToString(n));
    Decimal.LongToStringInjective(m, n);
  }

  lemma NameTokenInjective(a: string, f: bool, b: string, g: bool)
    ensures NameToken(a, f) == NameToken(b, g) <==> a == b && f == g
  {
    TokenInjective(NAME, f, a, g, b);
  }

  /** A separator-free head, followed by nothing or by a separator and a tail. */
  function Glue(head: string, tail: Option<string>): string {
    head + (if tail.Some? then [SEPARATOR] + tail.value else "")
  }

  lemma GlueHasSeparator(head: string, tail: Option<string>)
    requires SEPARATOR !in head
    ensures SEPARATOR in Glue(head, tail) <==> tail.Some?
  {
    if tail.Some? {
      assert Glue(head, tail)[|head|] == SEPARATOR;
    }
  }

  /** The head ends at the first separator, so head and tail are fixed by the text. */
  lemma GlueInjective(h1: string, t1: Option<string>, h2: string, t2: Option<string>)
    requires SEPARATOR !in h1 && SEPARATOR !in h2
    ensures Glue(h1, t1) == Glue(h2, t2) ==> h1 == h2 && t1 == t2
  {
    var q := Glue(h1, t1);
    if q == Glue(h2, t2) {
      GlueHasSeparator(h1, t1);
      GlueHasSeparator(h2, t2);
      if t1.Some? {
        assert q == h1 + [SEPARATOR] + t1.value;
        assert q == h2 + [SEPARATOR] + t2.value;
        IndexOfAfterPrefix(h1, SEPARATOR, t1.value);
        IndexOfAfterPrefix(h2, SEPARATOR, t2.value);
        assert |h1| == |h2|;
        assert h1 == q[..|h1|] == h2;
        assert t1.value == q[|h1| + 1..] == t2.value;
      } else {
        assert h1 == q == h2;
      }
    }
  }

  /** A non-empty query string starts with the id field exactly when an id is present. */
  lemma FirstCharMarksId(id: Option<int>, negateId: bool, name: Option<string>, negateName: bool)
    ensures var q := ConstructQueryStringNegated(id, negateId, name, negateName);
            q != "" ==> (q[0] == ID[0] <==> id.Some?)
  {
    var q := ConstructQueryStringNegated(id, negateId, name, negateName);
    if id.Some? {
      assert q[0] == IdToken(id.value, negateId)[0];
    } else if name.Some? {
      assert q[0] == NAME[0];
    }
  }

  /** The name token, when a name is present. */
  function NameTail(name: Option<string>, negateName: bool): Option<string> {
    if name.Some? then Some(NameToken(name.value, negateName)) else None
  }

  /** With an id, the query string is the id token glued to the optional name token. */
  lemma ConstructWithId(id: int, negateId: bool, name: Option<string>, negateName: bool)
    ensures ConstructQueryStringNegated(Some(id), negateId, name, negateName)
            == Glue(IdToken(id, negateId), NameTail(name, negateName))
  {
  }

  /** Two encodings that both carry an id agree exactly when the intended queries do. */
  lemma InjectiveWithId(id1: int, negateId1: bool, name1: Option<string>, negateName1: bool,
                        id2: int, negateId2: bool, name2: Option<string>, negateName2: bool)
    requires ConstructQueryStringNegated(Some(id1), negateId1, name1, negateName1)
             == ConstructQueryStringNegated(Some(id2), negateId2, name2, negateName2)
    ensures id1 == id2 && negateId1 == negateId2 && name1 == name2
    ensures name1.Some? ==> negateName1 == negateName2
  {
    var t1 := NameTail(name1, negateName1);
    var t2 := NameTail(name2, negateName2);
    ConstructWithId(id1, negateId1, name1, negateName1);
    ConstructWithId(id2, negateId2, name2, negateName2);
    IdTokenParses(id1, negateId1);
    IdTokenParses(id2, negateId2);
    GlueInjective(IdToken(id1, negateId1), t1, IdToken(id2, negateId2), t2);
    IdTokenInjective(id1, negateId1, id2, negateId2);
    if name1.Some? {
      NameTokenInjective(name1.value, negateName1, name2.value, negateName2);
    }
  }

  /** Distinct intended queries never share an encoding, whatever the name holds. */
  lemma ConstructInjective(id1: Option<int>, negateId1: bool, name1: Option<string>, negateName1: bool,
                           id2: Option<int>, negateId2: bool, name2: Option<string>, negateName2: bool)
    ensures ConstructQueryStringNegated(id1, negateId1, name1, negateName1)
            == ConstructQueryStringNegated(id2, negateId2, name2, negateName2)
            <==> Intended(id1, negateId1, name1, negateName1) == Intended(id2, negateId2, name2, negateName2)
  {
    var q1 := ConstructQueryStringNegated(id1, negateId1, name1, negateName1);
    var q2 := ConstructQueryStringNegated(id2, negateId2, name2, negateName2);
    if q1 == q2 && q1 != "" {
      FirstCharMarksId(id1, negateId1, name1, negateName1);
      FirstCharMarksId(id2, negateId2, name2, negateName2);
      if id1.Some? {
        InjectiveWithId(id1.value, negateId1, name1, negateName1, id2.value, negateId2, name2, negateName2);
      } else {
        NameTokenInjective(name1.value, negateName1, name2.value, negateName2);
      }
    }
  }

  lemma IdTokenExamples()
    ensures IdToken(2, false) == "id=2"
    ensures IdToken(2, true) == "id~=2"
    ensures IdToken(32, false) == "id=32"
  {
    assert Decimal.LongToString(2) == "2";
    assert Decimal.LongToString(32) == "32" by {
      assert Decimal.NatToString(32) == Decimal.NatToString(3) + "2";
    }
  }

  lemma NameTokenExamples()
    ensures NameToken("someName", false) == "name=someName"
    ensures NameToken("some", false) == "name=some"
    ensures NameToken("some", true) == "name~=some"
  {
  }

  /** The exact strings the unit tests expect when nothing is negated. */
  lemma ConstructQueryStringExamples()
    ensures ConstructQueryString(Some(2), None) == "id=2"
    ensures ConstructQueryString(None, Some("someName")) == "name=someName"
    ensures ConstructQueryString(Some(32), Some("someName")) == "id=32,name=someName"
  {
    IdTokenExamples();
    NameTokenExamples();
    assert "id=32" + [SEPARATOR] + "name=someName" == "id=32,name=someName";
  }

  /** The exact strings the unit tests expect with one field, negated. */
  lemma ConstructQueryStringNegatedExamples()
    ensures ConstructQueryStringNegated(Some(2), true, None, false) == "id~=2"
    ensures ConstructQueryStringNegated(None, false, Some("some"), true) == "name~=some"
  {
    IdTokenExamples();
    NameTokenExamples();
  }

  /** The exact strings the unit tests expect with both fields, one or both negated. */
  lemma ConstructQueryStringMixedExamples()
    ensures ConstructQueryStringNegated(Some(2), false, Some("some"), true) == "id=2,name~=some"
    ensures ConstructQueryStringNegated(Some(2), true, Some("some"), false) == "id~=2,name=some"
    ensures ConstructQueryStringNegated(Some(2), true, Some("some"), true) == "id~=2,name~=some"
  {
    IdTokenExamples();
    NameTokenExamples();
    assert "id=2" + [SEPARATOR] + "name~=some" == "id=2,name~=some";
    assert "id~=2" + [SEPARATOR] + "name=some" == "id~=2,name=some";
    assert "id~=2" + [SEPARATOR] + "name~=some" == "id~=2,name~=some";
  }
}

=== FILE: wrappers.dfy ===
/** Failure-compatible wrappers shared by the model: Option stands in for a
    Java reference that may be null, Result for a call that may throw. */
module Wrappers {

  /** A value that may be absent (Java `null`). */
  datatype Option<+T> = None | Some(value: T)

  /** The outcome of a service call: a value, or the exception it throws. */
  datatype Result<+T, +E> = Ok(value: T) | Err(error: E)
}
